=== FILE: README.md ===
# Filesys: the sandboxed file accessor and its tool client, in Dafny

Filesys exposes one directory (the root) to a tool-calling agent through two
read-only resources: `files://list`, which lists the visible regular files
directly under the root, and `files://read/{filename}`, which reads one file's
UTF-8 text with its size and modification time. The server side confines every
read to the root by joining the client's filename onto the root, resolving the
result and checking that the root is a strict ancestor of it. The client side
guards filenames before it asks and shapes each server response into a
`{"status": ...}` result.

This project models that core as pure functions over immutable values:

- `paths.dfy` (`Paths`): paths as sequences of components; splitting a
  filename at `/`; pathlib's `root / name` (an absolute name replaces the root);
  lexical resolution (`""` and `.` stay put, `..` goes to the parent and stays
  at `/`); strict ancestry, which is the meaning of `root in target.parents`.
- `filetree.dfy` (`FileTree`): the file system as a map from absolute paths to
  `File(bytes, mtime)` or `Dir(entries)`, where `entries` stands for the order
  in which the operating system enumerates the directory. Reading a file as
  text is a parameter, a partial function from bytes to text: strict UTF-8
  decoding followed by the newline translation of text mode.
- `quoting.dfy` (`Quoting`): Python's `repr()` of a string, with which an
  `OSError` message names its path.
- `resources.dfy` (`Resources`): `list_files` and `read_file`, with every
  failure as a value, and their JSON response objects.
- `server.dfy` (`Server`): the two resource templates bound to the accessor.
- `client.dfy` (`ToolClient`): the filename guard, the request URI, the two
  response-shaping functions, and end-to-end lemmas against the server.
- `json.dfy`, `wrappers.dfy`: JSON values and `Option`.

Assumptions the model rests on:

- Resolution is lexical. Symbolic links are not followed: a link inside the
  root that points outside it is not modelled, so the model says nothing about
  symlink escapes.
- The root is a canonical path (no empty, `.` or `..` components and no `/`
  inside a component), as resolving the configured directory at start-up
  makes it. The lemmas that need this say so with `Canonical(root)`.
- Paths are POSIX paths; `\` is an ordinary character on the server side.

The configured directory is resolved with a non-strict `resolve()`
(src/resources.py:8), so a missing root is not an error at start-up. The
listing reports it as an error object, and a read that passes containment
reports the target as not found, while a read that fails containment (`""`,
`../x`) still reports `Access denied` (`ListFiles`, `ReadFile`).

## Model

| member | source | states |
|---|---|---|
| Paths.Split | src/resources.py:25 | the pieces of a filename between separators: at least one piece, and no piece contains `/` |
| Paths.GlueSplit | src/resources.py:25 | splitting loses nothing: gluing the pieces back with `/` gives the filename again |
| Paths.SplitGlue | src/resources.py:25 | separator-free pieces glued with `/` split back into exactly those pieces |
| Paths.SplitWithoutSep | src/resources.py:25 | a name without a separator is a single piece |
| Paths.SplitAroundSep | src/resources.py:25 | splitting at a separator splits each side independently |
| Paths.GlueAppend | src/resources.py:25 | joining two non-empty piece lists with `/` is joining each and putting one `/` between them |
| Paths.JoinName | src/resources.py:25 | `root / name`: a name starting with `/` replaces the root, any other name extends it, leaving the root as a prefix |
| Paths.WalkBounds | src/resources.py:25 | resolution adds at most one component per input component, and each component it adds is a real name taken from the input |
| Paths.Resolve | src/resources.py:25 | the resolved path is no longer than its input, and holds only names from the input: no `""`, `.` or `..` survive |
| Paths.WalkAppend | src/resources.py:25 | resolution is a left-to-right walk: resolving `a + b` resolves `b` from where `a` ended |
| Paths.WalkNames | src/resources.py:25 | walking through real names only appends them, unchanged and in order |
| Paths.ResolveFixesNames | src/resources.py:25 | a path of names resolves to itself, and resolving twice is resolving once |
| Paths.WalkWithoutParentStep | src/resources.py:25 | without `..`, walking from a directory never leaves it: it appends the resolved components |
| Paths.ResolveEmptyWithoutParent | src/resources.py:25 | without `..`, a name resolves back to its start exactly when all its components are `""` or `.` |
| Paths.ResolveRender | src/resources.py:25 | the text of a canonical absolute path resolves to that path |
| Paths.AncestryFromParent | src/resources.py:28 | seen from a directory's parent, a path lies strictly below the directory exactly when it steps back into the directory's own name and then goes at least one level further |
| Paths.AncestorRendersAsTextPrefix | src/resources.py:28 | if the root is a strict ancestor of a target, the root's text followed by `/` starts the target's text |
| Paths.TextPrefixIsNotAncestry | src/resources.py:28 | containment is by component, not by text: `/data` starts the text `/data2/x` but is not its ancestor |
| Resources.Describe | src/resources.py:28-39 | the message of each failure; it is `Access denied` for the containment failure and for no other failure; a file-system failure names the path with `repr()` |
| Quoting.Repr | src/resources.py:37-38 | the quotes `repr()` puts around a path: double quotes exactly when the text has a `'` and no `"`, single quotes otherwise; text free of the quote, `\`, newline, carriage return and tab appears unchanged between them |
| Quoting.UnquoteRepr | src/resources.py:37-38 | the quoted path loses nothing: reading the escapes back gives the path's text again |
| Resources.VisibleFiles | src/resources.py:14-17 | the filter over a directory's entries keeps exactly the entries that are regular files under it and not hidden, and keeps them free of repeats |
| Resources.ListFiles | src/resources.py:10-20 | listing fails exactly when the root is not a directory, with "No such file or directory" for a missing root and "Not a directory" for a root that is a file; otherwise every listed name is a non-hidden regular file directly under the root, and an empty root lists `[]` |
| Resources.ListingIsExact | src/resources.py:13-18 | in a well-formed tree, every non-hidden regular file directly under the root is listed exactly once and nothing else is: no hidden names, no sub-directories |
| Resources.ReadFile | src/resources.py:22-39 | the result is `Access denied` exactly when the resolved target is not strictly below the root; it succeeds exactly when, in addition, the target is a regular file whose bytes decode, and then gives the decoded text, the byte length as size and the file's mtime; a missing target and a directory target give their own errors |
| Resources.DeniedReadIgnoresFiles | src/resources.py:28-29 | a denied read is the same whatever the files and the decoder are, so it reveals nothing about whether the target exists |
| Resources.AbsoluteTarget | src/resources.py:25-29 | any filename starting with `/` (such as `/srv/data/../x` or `//etc`) is resolved on its own, whatever the root, and is permitted exactly when that resolution lies strictly below the root |
| Resources.AbsoluteNameIgnoresRoot | src/resources.py:25-29 | a canonical absolute filename names its own path whatever the root, and is read only if that path lies strictly below the root (so `/etc/passwd` is denied under `/srv/data`) |
| Resources.RelativeNameWithoutParent | src/resources.py:25-29 | a relative name without `..` resolves below the root, and is permitted exactly when one of its components is a real name: `""`, `.` and `./.` are denied |
| Resources.PlainNameIsPermitted | src/resources.py:25-29 | a single plain name, hidden or not, resolves to the entry of that name directly under the root and passes containment |
| Resources.HiddenFileIsReadable | src/resources.py:22-37 | reading has no hidden-name rule: a decodable hidden file such as `.secret` directly under the root is read |
| Resources.ParentPrefixClimbs | src/resources.py:25 | a name `../rest` resolves as `rest` taken from the root's parent |
| Resources.ClimbingOutAndBack | src/resources.py:25-29 | after a leading `..` and no further `..`, the name is permitted exactly when it re-enters through the root's own last component and goes below it (`../x` and `../data2/x` are denied under `/srv/data`, `../data/x` is not) |
| Resources.ReturningToRootIsDenied | src/resources.py:25-29 | `a/..` resolves to the root itself, which is not a strict descendant, so it is denied |
| Resources.ListEnvelope | src/resources.py:13-20 | the listing's response object has exactly one of `files` and `error`, `error` exactly when listing failed, carrying the failure's message |
| Resources.ReadEnvelope | src/resources.py:31-39 | the read response has `error` or else `content` with `metadata`, never both; `error` exactly when reading failed, carrying the failure's message |
| Server.Route | src/server.py:6-14 | `files://list` routes to the listing and nothing else does; a read route's filename is the non-empty, separator-free rest of the URI after `files://read/` |
| Server.ReadsAreRouted | src/server.py:11-14 | every URI of the form `files://read/{filename}` with a non-empty, separator-free filename is routed to a read of exactly that filename, so names the client guard rejects, such as `.secret`, still reach the accessor |
| Server.Serve | src/server.py:6-14 | the adapter forwards the accessor's object: exactly one shape per operation, and any `error` is a string |
| ToolClient.ShapeList | claude_tool_client.py:59-67 | status is `success` or `error`; `success` exactly when the response has no `error` but has `files`, passed through; `error` carries the response's error even when other keys are present; any other shape gives the fixed unexpected-format message with the raw response as details |
| ToolClient.ShapeRead | claude_tool_client.py:91-105 | status is `success` or `error` and the filename is echoed; `success` exactly when there is no `error` and both `content` and `metadata` are present, both passed through; otherwise the response's error or the unexpected-format message with details |
| ToolClient.ListFilesInSafeFolder | claude_tool_client.py:47-67 | the listing tool requests `files://list` and succeeds exactly when that response has `files` and no `error`, and then passes its `files` through; a response's `error` becomes the result's `message` |
| ToolClient.ReadFileFromSafeFolder | claude_tool_client.py:70-105 | a request is made exactly when the guard accepts the name, and then for `files://read/` plus the unchanged name; a rejected name gives the fixed invalid-filename error without a filename; an accepted one is always echoed; it succeeds exactly when the response has no `error` but has both `content` and `metadata`, and then carries them; a response's `error` becomes the result's `message` |
| ToolClient.SafeFilenameIsPlainName | claude_tool_client.py:83 | a name the guard accepts is one component, neither `.` nor `..`, with no separator |
| ToolClient.SafeFilenameIsPermitted | claude_tool_client.py:83-88 | a name the guard accepts resolves to the entry directly under the root and passes the server's containment check |
| ToolClient.GuardIsStricterThanAccessor | claude_tool_client.py:83 | a hidden plain name is rejected by the guard although the server would permit it |
| ToolClient.ReadUriRoutes | claude_tool_client.py:87 | the URI built for an accepted name routes back to a read of that same name |
| ToolClient.ReadEndToEnd | claude_tool_client.py:83-102 | against a server answering from the accessor, reading an accepted name succeeds exactly when a decodable regular file of that name is directly under the root, returns its text, size and mtime, and never reports `Access denied` |
| ToolClient.ListEndToEnd | claude_tool_client.py:56-64 | against a server answering from the accessor, listing succeeds exactly when the root is a directory and returns the accessor's names; an error carries the accessor's message |

## Left out

- Configuration loading (src/resources.py:5-8): reading `config.json`, `expanduser` and resolving the configured directory are I/O at start-up; the root is a parameter of every operation instead.
- Symbolic links: `resolve()` and `is_file()` follow links on the live file system; the model resolves lexically and has no links.
- A filename holding a NUL character, which makes the path calls raise `ValueError`; the model treats NUL as an ordinary character.
- Permission errors and other I/O faults (and the non-regular files such as FIFOs that `read_text` would block on): the file map has no permissions or special files.
- Resources.ReadFile: a target below a regular file (`"a.txt/x"`) is reported as not found, where the operating system reports "Not a directory".
- Resources.Describe: the UTF-8 decoding error text is fixed, without the offending byte and position that Python includes.
- Quoting.Repr: the model escapes only the chosen quote, the backslash, newline, carriage return and tab; Python's `repr()` also escapes every other non-printable character (as `\x..`, `\u....` or `\U........`, e.g. `\x01` or a no-break space as `\xa0`), which the model leaves unescaped, because printability depends on Unicode tables the model does not carry.
- Resources.Describe: a path holding a non-printable character other than newline, carriage return and tab appears in the message unescaped, where Python escapes it (see `Quoting.Repr`).
- The real UTF-8 decoder and text-mode newline translation: reading as text is a parameter (`Decoder`), any partial function from bytes to text, so the model does not relate the text's length to the byte size.
- Modification times are `real` values standing for the float `st_mtime`; the file cannot change between reading and the two `stat` calls, since there is no concurrency in the model.
- The listing order: `iterdir` order is unspecified; the model takes it from the directory's stored `entries`, and `ListingIsExact` states membership and counts, not order.
- `_execute_mcp_request` (claude_tool_client.py:12-45): the stdio transport, MCP sessions and JSON parsing are a parameter, a function from the requested URI to a response object; its own transport-failure objects are just some of the responses that parameter may give.
- ToolClient.ShapeList: the logging call takes `len()` of the `files` value, which raises `TypeError` for a number, boolean or null; the model shapes such a response as success. The server only ever sends a list.
- Server.Route: matching of resource templates is done by the MCP library, which is not part of this model; the route assumes the usual rule that a `{filename}` parameter matches one or more characters other than `/`.
- JSON serialisation of results by the server framework, and responses that are not JSON objects: responses are modelled as objects (`Dict`).
- interact_with_claude.py, example_client.py and the tests: the conversation loop, printing and the demo scripts are glue around network calls.
- Logging, `print`, and async/await: no effect on the results.

=== FILE: client.dfy ===
/**
 The tool client: the two tool functions an agent calls. The listing tool
 requests "files://list"; the reading tool first guards the filename and then
 requests "files://read/<filename>". Each shapes the server's response object
 into a result with a "status" of "success" or "error". The request itself
 (transport, sessions, JSON parsing) is a parameter: a function from the
 requested URI to the response object.
 */
module ToolClient {
  import opened Wrappers
  import opened Paths
  import opened FileTree
  import opened JsonData
  import opened Resources
  import opened Server

  const InvalidFilenameMessage: string := "Invalid or potentially unsafe filename provided."
  const UnexpectedFormatMessage: string := "Unexpected response format from Filesys server"

  const Succeeded: Json := JStr("success")
  const Errored: Json := JStr("error")

  /** The response a request for a URI receives. */
  type Transport = string -> Dict

  /** What a tool did: the URI it requested, if any, and the result it returned. */
  datatype ToolCall = ToolCall(request: Option<string>, result: Dict)

  /** Every result carries a status of "success" or "error". */
  predicate HasStatus(r: Dict) {
    "status" in r && (r["status"] == Succeeded || r["status"] == Errored)
  }

  /** The client's guard: a non-empty name with no "/" or "\" that does not start with ".". */
  predicate IsSafeFilename(filename: string) {
    && |filename| > 0
    && Sep !in filename
    && '\\' !in filename
    && filename[0] != '.'
  }

  function ReadUri(filename: string): string {
    ReadPrefix + filename
  }

  /** Shapes the response to "files://list". */
  function ShapeList(response: Dict): (r: Dict)
    ensures HasStatus(r)
    ensures r["status"] == Succeeded <==> "error" !in response && "files" in response
    ensures r["status"] == Succeeded ==> r == map["status" := Succeeded, "files" := response["files"]]
    ensures "error" in response ==> r == map["status" := Errored, "message" := response["error"]]
    ensures "error" !in response && "files" !in response ==>
      r == map["status" := Errored, "message" := JStr(UnexpectedFormatMessage), "details" := JObject(response)]
  {
    if "error" in response then
      map["status" := Errored, "message" := response["error"]]
    else if "files" in response then
      map["status" := Succeeded, "files" := response["files"]]
    else
      map["status" := Errored, "message" := JStr(UnexpectedFormatMessage), "details" := JObject(response)]
  }

  /** Shapes the response to "files://read/<filename>", echoing the filename. */
  function ShapeRead(filename: string, response: Dict): (r: Dict)
    ensures HasStatus(r)
    ensures "filename" in r && r["filename"] == JStr(filename)
    ensures r["status"] == Succeeded <==> "error" !in response && "content" in response && "metadata" in response
    ensures r["status"] == Succeeded ==>
      r == map["status" := Succeeded, "filename" := JStr(filename),
               "content" := response["content"], "metadata" := response["metadata"]]
    ensures "error" in response ==>
      r == map["status" := Errored, "filename" := JStr(filename), "message" := response["error"]]
    ensures "error" !in response && !("content" in response && "metadata" in response) ==>
      && "message" in r && r["message"] == JStr(UnexpectedFormatMessage)
      && "details" in r && r["details"] == JObject(response)
  {
    if "error" in response then
      map["status" := Errored, "filename" := JStr(filename), "message" := response["error"]]
    else if "content" in response && "metadata" in response then
      map["status" := Succeeded, "filename" := JStr(filename),
          "content" := response["content"], "metadata" := response["metadata"]]
    else
      map["status" := Errored, "filename" := JStr(filename),
          "message" := JStr(UnexpectedFormatMessage), "details" := JObject(response)]
  }

  /** The listing tool: one request for "files://list", its response shaped. */
  function ListFilesInSafeFolder(mcp: Transport): (c: ToolCall)
    ensures c.request == Some(ListUri)
    ensures HasStatus(c.result)
    ensures c.result["status"] == Succeeded <==> "error" !in mcp(ListUri) && "files" in mcp(ListUri)
    ensures c.result["status"] == Succeeded ==> "files" in c.result && c.result["files"] == mcp(ListUri)["files"]
    ensures "error" in mcp(ListUri) ==> "message" in c.result && c.result["message"] == mcp(ListUri)["error"]
  {
    ToolCall(Some(ListUri), ShapeList(mcp(ListUri)))
  }

  /** The reading tool: a name the guard rejects gets an error and no request;
      any other is requested unchanged and its response shaped. */
  function ReadFileFromSafeFolder(filename: string, mcp: Transport): (c: ToolCall)
    ensures c.request.Some? <==> IsSafeFilename(filename)
    ensures c.request.Some? ==> c.request.value == ReadUri(filename)
    ensures !IsSafeFilename(filename) ==>
      c.result == map["status" := Errored, "message" := JStr(InvalidFilenameMessage)]
    ensures IsSafeFilename(filename) ==> "filename" in c.result && c.result["filename"] == JStr(filename)
    ensures HasStatus(c.result)
    ensures c.result["status"] == Succeeded ==>
      && IsSafeFilename(filename)
      && "error" !in mcp(ReadUri(filename))
      && "content" in mcp(ReadUri(filename)) && "metadata" in mcp(ReadUri(filename))
      && "content" in c.result && "metadata" in c.result
      && c.result["content"] == mcp(ReadUri(filename))["content"]
      && c.result["metadata"] == mcp(ReadUri(filename))["metadata"]
    ensures IsSafeFilename(filename) ==>
      (c.result["status"] == Succeeded <==>
        "error" !in mcp(ReadUri(filename)) && "content" in mcp(ReadUri(filename)) && "metadata" in mcp(ReadUri(filename)))
    ensures IsSafeFilename(filename) && "error" in mcp(ReadUri(filename)) ==>
      "message" in c.result && c.result["message"] == mcp(ReadUri(filename))["error"]
  {
    if !IsSafeFilename(filename) then
      ToolCall(None, map["status" := Errored, "message" := JStr(InvalidFilenameMessage)])
    else
      var uri := ReadUri(filename);
      ToolCall(Some(uri), ShapeRead(filename, mcp(uri)))
  }

  /*
   * The guard against the accessor's containment check
   */

  /** A name the guard accepts is a single plain component: not empty, not
      "." or "..", and free of separators. */
  lemma SafeFilenameIsPlainName(filename: string)
    requires IsSafeFilename(filename)
    ensures IsPlainName(filename)
    ensures Split(filename) == [filename]
  {
    assert filename != "." && filename != ".." by {
      assert filename[0] != '.';
    }
    SplitWithoutSep(filename);
  }

  /** A name the guard accepts names the entry of that name directly under a
      canonical root, and so passes the accessor's containment check. */
  lemma SafeFilenameIsPermitted(root: Path, filename: string)
    requires Canonical(root) && IsSafeFilename(filename)
    ensures Target(root, filename) == root + [filename]
    ensures Permitted(root, filename)
  {
    SafeFilenameIsPlainName(filename);
    PlainNameIsPermitted(root, filename);
  }

  /** The guard is stricter than the accessor: a hidden name is rejected by
      the guard, yet the accessor would read it. */
  lemma GuardIsStricterThanAccessor(root: Path, name: Component)
    requires Canonical(root) && IsPlainName(name) && IsHidden(name)
    ensures !IsSafeFilename(name)
    ensures Permitted(root, name)
  {
    PlainNameIsPermitted(root, name);
  }

  /** The URI the reading tool requests routes back to a read of the same name. */
  lemma ReadUriRoutes(filename: string)
    requires IsSafeFilename(filename)
    ensures Route(ReadUri(filename)) == Some(ReadRequest(filename))
  {
  }

  /*
   * End to end: the tools against the file server
   */

  /** Reading a name the guard accepts, from a server that answers from the
      accessor: the tool succeeds exactly when a UTF-8 regular file of that
      name sits directly under the root, and then returns its text and
      metadata; it never reports "Access denied". */
  lemma ReadEndToEnd(fs: FileSystem, root: Path, decode: Decoder, filename: string, mcp: Transport)
    requires Canonical(root) && IsSafeFilename(filename)
    requires Handle(fs, root, decode, ReadUri(filename)) == Some(mcp(ReadUri(filename)))
    ensures var r := ReadFileFromSafeFolder(filename, mcp).result;
      var p := root + [filename];
      && (r["status"] == Succeeded <==> IsFileAt(fs, p) && decode(fs[p].bytes).Some?)
      && (r["status"] == Succeeded ==>
            && r["content"] == JStr(decode(fs[p].bytes).value)
            && r["metadata"] == MetadataJson(Metadata(|fs[p].bytes|, fs[p].mtime)))
      && (r["status"] == Errored ==> r["message"] != JStr(AccessDeniedMessage))
  {
    ReadUriRoutes(filename);
    SafeFilenameIsPermitted(root, filename);
    var reading := ReadFile(fs, root, filename, decode);
    assert mcp(ReadUri(filename)) == ReadEnvelope(reading);
    if reading.ReadFailed? {
      assert reading.fault != AccessDenied;
    }
  }

  /** Listing from a server that answers from the accessor: the tool succeeds
      exactly when the root is a directory, and then returns the accessor's
      names; in a well-formed tree these are each visible regular file
      directly under the root, once. */
  lemma ListEndToEnd(fs: FileSystem, root: Path, decode: Decoder, mcp: Transport)
    requires Handle(fs, root, decode, ListUri) == Some(mcp(ListUri))
    ensures var r := ListFilesInSafeFolder(mcp).result;
      && (r["status"] == Succeeded <==> IsDirAt(fs, root))
      && (r["status"] == Succeeded ==> r["files"] == JArray(Strings(ListFiles(fs, root).files)))
      && (r["status"] == Errored ==> r["message"] == JStr(Describe(ListFiles(fs, root).fault)))
    ensures WellFormed(fs) && IsDirAt(fs, root) ==>
      forall n :: n in ListFiles(fs, root).files <==> IsVisibleFile(fs, root, n)
  {
  }

}

=== FILE: filetree.dfy ===
/**
 The file system the accessor reads, as a value: a map from absolute paths to
 nodes. A directory records its entries in the order the operating system
 enumerates them; that order is not specified and the model does not fix it.
 */
module FileTree {
  import opened Wrappers
  import opened Paths

  newtype byte = x: int | 0 <= x < 256

  /** Modification time, seconds since the epoch. */
  type Timestamp = real

  datatype Node =
    | File(bytes: seq<byte>, mtime: Timestamp)
    | Dir(entries: seq<Component>)

  type FileSystem = map<Path, Node>

  /** Reading a file as text, a partial function from bytes to text: strict UTF-8
      decoding followed by newline translation ("\r\n" and "\r" become "\n"),
      None for bytes that are not UTF-8. The text can be shorter than the bytes. */
  type Decoder = seq<byte> -> Option<string>

  predicate IsFileAt(fs: FileSystem, p: Path) {
    p in fs && fs[p].File?
  }

  predicate IsDirAt(fs: FileSystem, p: Path) {
    p in fs && fs[p].Dir?
  }

  predicate Distinct<T(==)>(s: seq<T>) {
    forall i, j :: 0 <= i < j < |s| ==> s[i] != s[j]
  }

  /** A tree: every node other than "/" sits in a directory that lists it,
      and a directory lists each of its entries once, each of which exists. */
  ghost predicate WellFormed(fs: FileSystem) {
    && (forall d, n | d + [n] in fs :: IsDirAt(fs, d) && n in fs[d].entries)
    && (forall d | d in fs && fs[d].Dir? :: Distinct(fs[d].entries))
    && (forall d, n | d in fs && fs[d].Dir? && n in fs[d].entries :: d + [n] in fs)
  }

  /** A sequence without repeats holds each of its elements exactly once. */
  lemma {:induction false} DistinctCountsOnce<T>(s: seq<T>, x: T)
    requires Distinct(s)
    ensures multiset(s)[x] == (if x in s then 1 else 0)
    decreases |s|
  {
    if |s| > 0 {
      assert s == [s[0]] + s[1..];
      assert Distinct(s[1..]) by {
        forall i, j | 0 <= i < j < |s[1..]| ensures s[1..][i] != s[1..][j] {
          assert s[1..][i] == s[i + 1] && s[1..][j] == s[j + 1];
        }
      }
      DistinctCountsOnce(s[1..], x);
      assert s[0] !in s[1..] by {
        forall k | 0 <= k < |s[1..]| ensures s[1..][k] != s[0] {
          assert s[1..][k] == s[k + 1];
        }
      }
    }
  }

}

=== FILE: json.dfy ===
/** The JSON values exchanged between the file server and the tool client. */
module JsonData {

  datatype Json =
    | JNull
    | JBool(b: bool)
    | JInt(i: int)
    | JFloat(x: real)
    | JStr(s: string)
    | JArray(items: seq<Json>)
    | JObject(fields: map<string, Json>)

  /** A JSON object, the shape of every response: keys to values. */
  type Dict = map<string, Json>

  /** A list of strings as JSON values, in the same order. */
  function Strings(names: seq<string>): seq<Json> {
    seq(|names|, i requires 0 <= i < |names| => JStr(names[i]))
  }

}

=== FILE: paths.dfy ===
/**
 This module models POSIX paths the way the file accessor builds them: the
 client's filename is split at "/", joined onto the root directory (an
 absolute filename replaces the root), and the result is normalised lexically.
 Symbolic links are not followed: resolution here is purely lexical.
 */
module Paths {

  /** One component of a path, such as "docs" or "..". */
  type Component = string

  /** An absolute path, as the components below "/". The root "/" itself is []. */
  type Path = seq<Component>

  const Sep: char := '/'

  /** A component that names an entry, rather than being empty, "." or "..". */
  predicate IsName(c: Component) {
    c != "" && c != "." && c != ".."
  }

  /** A component that names an entry and contains no separator. */
  predicate IsPlainName(c: Component) {
    IsName(c) && Sep !in c
  }

  /** A canonical path, such as a resolved path: every component is a plain name. */
  predicate Canonical(p: Path) {
    forall i :: 0 <= i < |p| ==> IsPlainName(p[i])
  }

  function Parent(p: Path): Path
    requires |p| > 0
  {
    p[..|p| - 1]
  }

  function Last(p: Path): Component
    requires |p| > 0
  {
    p[|p| - 1]
  }

  /*
   * Splitting text at separators, and gluing pieces back together
   */

  /** Splits text at every separator, keeping empty pieces: "a//b" gives
      ["a", "", "b"], "/etc" gives ["", "etc"] and "" gives [""]. */
  function Split(s: string): (parts: seq<string>)
    ensures |parts| >= 1
    ensures forall i :: 0 <= i < |parts| ==> Sep !in parts[i]
  {
    SplitFrom("", s)
  }

  /** Splits s, with piece already read as the start of its first piece. */
  function SplitFrom(piece: string, s: string): (parts: seq<string>)
    requires Sep !in piece
    ensures |parts| >= 1
    ensures forall i :: 0 <= i < |parts| ==> Sep !in parts[i]
    decreases |s|
  {
    if |s| == 0 then [piece]
    else if s[0] == Sep then [piece] + SplitFrom("", s[1..])
    else SplitFrom(piece + [s[0]], s[1..])
  }

  /** Puts a separator between neighbouring pieces. */
  function Glue(parts: seq<string>): string
    requires |parts| >= 1
    decreases |parts|
  {
    if |parts| == 1 then parts[0] else parts[0] + [Sep] + Glue(parts[1..])
  }

  /** Gluing the pieces of a split gives back the text. */
  lemma GlueSplit(s: string)
    ensures Glue(Split(s)) == s
  {
    GlueSplitFrom("", s);
  }

  lemma {:induction false} GlueSplitFrom(piece: string, s: string)
    requires Sep !in piece
    ensures Glue(SplitFrom(piece, s)) == piece + s
    decreases |s|
  {
    if |s| == 0 {
      assert piece + s == piece;
    } else if s[0] == Sep {
      var rest := SplitFrom("", s[1..]);
      GlueSplitFrom("", s[1..]);
      assert ([piece] + rest)[1..] == rest;
      assert Glue([piece] + rest) == piece + [Sep] + Glue(rest);
      assert "" + s[1..] == s[1..];
      assert piece + s == piece + [Sep] + s[1..];
    } else {
      GlueSplitFrom(piece + [s[0]], s[1..]);
      assert piece + s == piece + [s[0]] + s[1..];
    }
  }

  /** Text without a separator splits into itself. */
  lemma SplitWithoutSep(s: string)
    requires Sep !in s
    ensures Split(s) == [s]
  {
    SplitFromWithoutSep("", s);
    assert "" + s == s;
  }

  lemma {:induction false} SplitFromWithoutSep(piece: string, s: string)
    requires Sep !in piece && Sep !in s
    ensures SplitFrom(piece, s) == [piece + s]
    decreases |s|
  {
    if |s| == 0 {
      assert piece + s == piece;
    } else {
      assert s[0] in s;
      assert Sep !in s[1..] by {
        forall k | 0 <= k < |s[1..]| ensures s[1..][k] != Sep {
          assert s[1..][k] == s[k + 1];
        }
      }
      SplitFromWithoutSep(piece + [s[0]], s[1..]);
      assert piece + s == piece + [s[0]] + s[1..];
    }
  }

  /** Splitting distributes over a separator. */
  lemma SplitAroundSep(a: string, b: string)
    ensures Split(a + [Sep] + b) == Split(a) + Split(b)
  {
    SplitFromAroundSep("", a, b);
  }

  lemma {:induction false} SplitFromAroundSep(piece: string, a: string, b: string)
    requires Sep !in piece
    ensures SplitFrom(piece, a + [Sep] + b) == SplitFrom(piece, a) + Split(b)
    decreases |a|
  {
    var x := a + [Sep] + b;
    if |a| == 0 {
      assert x == [Sep] + b;
      assert x[1..] == b;
    } else {
      assert x[0] == a[0];
      assert x[1..] == a[1..] + [Sep] + b;
      if a[0] == Sep {
        SplitFromAroundSep("", a[1..], b);
        var ra := SplitFrom("", a[1..]);
        assert [piece] + (ra + Split(b)) == ([piece] + ra) + Split(b);
      } else {
        SplitFromAroundSep(piece + [a[0]], a[1..], b);
      }
    }
  }

  /** Splitting glued pieces gives back the pieces, when none holds a separator. */
  lemma {:induction false} SplitGlue(parts: seq<string>)
    requires |parts| >= 1
    requires forall i :: 0 <= i < |parts| ==> Sep !in parts[i]
    ensures Split(Glue(parts)) == parts
    decreases |parts|
  {
    SplitWithoutSep(parts[0]);
    if |parts| > 1 {
      SplitGlue(parts[1..]);
      SplitAroundSep(parts[0], Glue(parts[1..]));
      assert parts == [parts[0]] + parts[1..];
    }
  }

  /** Glue of a concatenation: the two halves are joined with one separator. */
  lemma {:induction false} GlueAppend(a: seq<string>, b: seq<string>)
    requires |a| >= 1 && |b| >= 1
    ensures Glue(a + b) == Glue(a) + [Sep] + Glue(b)
    decreases |a|
  {
    if |a| == 1 {
      assert (a + b)[1..] == b;
    } else {
      assert (a + b)[1..] == a[1..] + b;
      GlueAppend(a[1..], b);
    }
  }

  /*
   * Lexical resolution
   */

  /** One step of normalisation: "" and "." stay put, ".." goes to the
      parent (and stays at "/"), any other component descends. */
  function Step(p: Path, c: Component): Path {
    if c == "" || c == "." then p
    else if c == ".." then (if |p| == 0 then p else Parent(p))
    else p + [c]
  }

  /** Walks from p through the components cs, left to right. */
  function Walk(p: Path, cs: seq<Component>): Path
    decreases |cs|
  {
    if |cs| == 0 then p else Walk(Step(p, cs[0]), cs[1..])
  }

  /** A walk adds at most one component per step, and each component it adds
      is a name taken from cs. */
  lemma {:induction false} WalkBounds(p: Path, cs: seq<Component>)
    ensures |Walk(p, cs)| <= |p| + |cs|
    ensures forall i :: 0 <= i < |Walk(p, cs)| ==> Walk(p, cs)[i] in p || (IsName(Walk(p, cs)[i]) && Walk(p, cs)[i] in cs)
    decreases |cs|
  {
    if |cs| > 0 {
      WalkBounds(Step(p, cs[0]), cs[1..]);
      assert forall x :: x in cs[1..] ==> x in cs;
    }
  }

  /** The resolved absolute path of the components cs, starting from "/". */
  function Resolve(cs: seq<Component>): (r: Path)
    ensures |r| <= |cs|
    ensures forall i :: 0 <= i < |r| ==> IsName(r[i]) && r[i] in cs
    ensures (forall i :: 0 <= i < |cs| ==> Sep !in cs[i]) ==> Canonical(r)
  {
    WalkBounds([], cs);
    Walk([], cs)
  }

  /** Walking through c and then cs. */
  lemma WalkCons(p: Path, c: Component, cs: seq<Component>)
    ensures Walk(p, [c] + cs) == Walk(Step(p, c), cs)
  {
  }

  /** Walking through a concatenation is walking through each half in turn. */
  lemma {:induction false} WalkAppend(p: Path, a: seq<Component>, b: seq<Component>)
    ensures Walk(p, a + b) == Walk(Walk(p, a), b)
    decreases |a|
  {
    if |a| == 0 {
      assert a + b == b;
    } else {
      assert (a + b)[0] == a[0];
      assert (a + b)[1..] == a[1..] + b;
      WalkAppend(Step(p, a[0]), a[1..], b);
    }
  }

  /** Walking through names only appends them. */
  lemma {:induction false} WalkNames(p: Path, cs: seq<Component>)
    requires forall i :: 0 <= i < |cs| ==> IsName(cs[i])
    ensures Walk(p, cs) == p + cs
    decreases |cs|
  {
    if |cs| > 0 {
      WalkNames(p + [cs[0]], cs[1..]);
      assert p + [cs[0]] + cs[1..] == p + cs;
    }
  }

  /** A canonical path resolves to itself, and resolution is idempotent. */
  lemma ResolveFixesNames(cs: seq<Component>)
    ensures (forall i :: 0 <= i < |cs| ==> IsName(cs[i])) ==> Resolve(cs) == cs
    ensures Resolve(Resolve(cs)) == Resolve(cs)
  {
    if forall i :: 0 <= i < |cs| ==> IsName(cs[i]) {
      WalkNames([], cs);
    }
    var r := Resolve(cs);
    WalkNames([], r);
  }

  /** Without "..", walking from p never leaves p: it appends the resolved components. */
  lemma {:induction false} WalkWithoutParentStep(p: Path, cs: seq<Component>)
    requires ".." !in cs
    ensures Walk(p, cs) == p + Walk([], cs)
    decreases |cs|
  {
    if |cs| > 0 {
      var c, rest := cs[0], cs[1..];
      assert cs == [c] + rest;
      WalkCons(p, c, rest);
      WalkCons([], c, rest);
      if IsName(c) {
        assert Step(p, c) == p + [c] && Step([], c) == [c];
        WalkWithoutParentStep(p + [c], rest);
        WalkWithoutParentStep([c], rest);
        assert p + [c] + Walk([], rest) == p + ([c] + Walk([], rest));
      } else {
        WalkWithoutParentStep(p, rest);
      }
    }
  }

  /** Without "..", resolution is empty exactly when every component is "" or ".". */
  lemma {:induction false} ResolveEmptyWithoutParent(cs: seq<Component>)
    requires ".." !in cs
    ensures |Resolve(cs)| == 0 <==> forall c :: c in cs ==> !IsName(c)
    decreases |cs|
  {
    if |cs| > 0 {
      var c, rest := cs[0], cs[1..];
      assert cs == [c] + rest;
      WalkCons([], c, rest);
      ResolveEmptyWithoutParent(rest);
      if IsName(c) {
        assert Step([], c) == [c] && c in cs;
        WalkWithoutParentStep([c], rest);
      }
    }
  }

  /** The components of root / name, as pathlib's "/" builds them: a name
      that starts with "/" replaces the root, any other is appended to it. */
  function JoinName(root: Path, name: string): (cs: seq<Component>)
    ensures |name| > 0 && name[0] == Sep ==> cs == Split(name)
    ensures !(|name| > 0 && name[0] == Sep) ==> |cs| > |root| && cs[..|root|] == root
  {
    if |name| > 0 && name[0] == Sep then Split(name) else root + Split(name)
  }

  /*
   * Ancestry
   */

  /** a is a proper ancestor of b: a strict component-wise prefix of it. This is
      the meaning of "a in b.parents" for absolute paths. */
  predicate StrictAncestor(a: Path, b: Path) {
    |a| < |b| && b[..|a|] == a
  }

  /** The text of an absolute path: "/" for the root, "/a/b" otherwise. */
  function Render(p: Path): (s: string)
    ensures |s| >= 1 && s[0] == Sep
  {
    if |p| == 0 then [Sep] else [Sep] + Glue(p)
  }

  /** A path below the parent of a non-root directory d lies strictly below d
      exactly when it continues through d's own last component and beyond. */
  lemma AncestryFromParent(d: Path, back: Path)
    requires |d| > 0
    ensures StrictAncestor(d, Parent(d) + back) <==> |back| > 1 && back[0] == Last(d)
  {
  }

  /** The parent of a canonical path is canonical. */
  lemma CanonicalParent(p: Path)
    requires Canonical(p) && |p| > 0
    ensures Canonical(Parent(p))
  {
  }

  /** A textual prefix test on rendered paths, the check a naive sandbox would use. */
  predicate TextPrefix(a: string, b: string) {
    |a| <= |b| && b[..|a|] == a
  }

  /** Ancestry implies that the rendered ancestor followed by "/" starts the descendant's text. */
  lemma AncestorRendersAsTextPrefix(a: Path, b: Path)
    requires |a| > 0 && StrictAncestor(a, b)
    ensures TextPrefix(Render(a) + [Sep], Render(b))
  {
    assert b == a + b[|a|..];
    GlueAppend(a, b[|a|..]);
    assert Render(b) == Render(a) + [Sep] + Glue(b[|a|..]);
  }

  /** The text test is not ancestry: "/data" starts "/data2/x", yet the root
      "/data" is no ancestor of "/data2/x". */
  lemma TextPrefixIsNotAncestry()
    ensures TextPrefix(Render(["data"]), Render(["data2", "x"]))
    ensures !StrictAncestor(["data"], ["data2", "x"])
  {
  }

  /** Resolving the text of a canonical path gives the path back. */
  lemma {:induction false} ResolveRender(p: Path)
    requires Canonical(p)
    ensures Resolve(Split(Render(p))) == p
  {
    var pieces: seq<string> := if |p| == 0 then [""] else p;
    assert Split(Render(p)) == [""] + pieces by {
      if |p| == 0 {
        assert Render(p) == [Sep] + "";
        SplitAroundSep("", "");
      } else {
        assert Render(p) == "" + [Sep] + Glue(p);
        SplitAroundSep("", Glue(p));
        SplitGlue(p);
      }
    }
    WalkCons([], "", pieces);
    if |p| == 0 {
      WalkCons([], "", []);
    } else {
      WalkNames([], p);
    }
  }

}

=== FILE: quoting.dfy ===
/**
 Python's repr() of a string, as an OSError message shows the file name it
 failed on: the text between quotes, with the quote character, backslashes
 and the common control characters escaped.
 */
module Quoting {
  import opened Wrappers

  const Backslash: char := '\\'

  /** repr() picks double quotes only when the text holds a single quote and no double quote. */
  function QuoteFor(s: string): (q: char)
    ensures q == '\'' || q == '"'
    ensures q in s ==> q == '\'' && '"' in s
  {
    if '\'' in s && '"' !in s then '"' else '\''
  }

  /** The characters that repr() escapes inside quotes q. */
  predicate Special(q: char, c: char) {
    c == Backslash || c == q || c == '\n' || c == '\r' || c == '\t'
  }

  function EscapeChar(q: char, c: char): string {
    if c == Backslash then [Backslash, Backslash]
    else if c == q then [Backslash, q]
    else if c == '\n' then [Backslash, 'n']
    else if c == '\r' then [Backslash, 'r']
    else if c == '\t' then [Backslash, 't']
    else [c]
  }

  /** The body of the quoted text: text without special characters is kept as it is. */
  function Escape(q: char, s: string): (e: string)
    ensures |e| >= |s|
    ensures (forall i :: 0 <= i < |s| ==> !Special(q, s[i])) ==> e == s
    decreases |s|
  {
    if |s| == 0 then [] else EscapeChar(q, s[0]) + Escape(q, s[1..])
  }

  /** The quoted, escaped text; the quote at each end is one repr() would choose. */
  function Repr(s: string): (r: string)
    ensures |r| >= |s| + 2
    ensures r[0] == r[|r| - 1] == QuoteFor(s)
    ensures r[0] == '"' <==> '\'' in s && '"' !in s
    ensures (forall i :: 0 <= i < |s| ==> !Special(QuoteFor(s), s[i])) ==> r == [QuoteFor(s)] + s + [QuoteFor(s)]
  {
    var q := QuoteFor(s);
    [q] + Escape(q, s) + [q]
  }

  /** The character an escape sequence "\e" stands for, if any. */
  function UnescapeCode(q: char, e: char): Option<char> {
    if e == Backslash then Some(Backslash)
    else if e == q then Some(q)
    else if e == 'n' then Some('\n')
    else if e == 'r' then Some('\r')
    else if e == 't' then Some('\t')
    else None
  }

  /** Reads an escaped body back; None for a dangling or unknown escape. */
  function Unescape(q: char, t: string): Option<string>
    decreases |t|
  {
    if |t| == 0 then Some([])
    else if t[0] != Backslash then
      match Unescape(q, t[1..])
      case None => None
      case Some(rest) => Some([t[0]] + rest)
    else if |t| < 2 || UnescapeCode(q, t[1]).None? then None
    else
      match Unescape(q, t[2..])
      case None => None
      case Some(rest) => Some([UnescapeCode(q, t[1]).value] + rest)
  }

  /** Reads a quoted text back, as Python's literal syntax would. */
  function Unquote(r: string): Option<string> {
    if |r| < 2 || r[0] != r[|r| - 1] || (r[0] != '\'' && r[0] != '"') then None
    else Unescape(r[0], r[1..|r| - 1])
  }

  /** Reading back one plain character. */
  lemma UnescapePlain(q: char, c: char, u: string)
    requires c != Backslash
    ensures Unescape(q, [c] + u) ==
      (match Unescape(q, u) case None => None case Some(rest) => Some([c] + rest))
  {
    assert ([c] + u)[1..] == u;
  }

  /** Reading back one escape sequence. */
  lemma UnescapePair(q: char, e: char, u: string)
    requires UnescapeCode(q, e).Some?
    ensures Unescape(q, [Backslash, e] + u) ==
      (match Unescape(q, u) case None => None case Some(rest) => Some([UnescapeCode(q, e).value] + rest))
  {
    assert ([Backslash, e] + u)[2..] == u;
  }

  /** Escaping one character and reading it back gives that character. */
  lemma EscapeCons(q: char, c: char, u: string)
    requires q == '\'' || q == '"'
    ensures Unescape(q, EscapeChar(q, c) + u) ==
      (match Unescape(q, u) case None => None case Some(rest) => Some([c] + rest))
  {
    if Special(q, c) {
      var e := EscapeChar(q, c)[1];
      assert EscapeChar(q, c) == [Backslash, e];
      assert UnescapeCode(q, e) == Some(c);
      UnescapePair(q, e, u);
    } else {
      assert EscapeChar(q, c) == [c];
      UnescapePlain(q, c, u);
    }
  }

  /** Escaping loses nothing: the escaped body reads back as the original text. */
  lemma {:induction false} UnescapeEscape(q: char, s: string)
    requires q == '\'' || q == '"'
    ensures Unescape(q, Escape(q, s)) == Some(s)
    decreases |s|
  {
    if |s| > 0 {
      UnescapeEscape(q, s[1..]);
      EscapeCons(q, s[0], Escape(q, s[1..]));
      assert [s[0]] + s[1..] == s;
    }
  }

  /** repr() is faithful: the quoted text reads back as the original. */
  lemma UnquoteRepr(s: string)
    ensures Unquote(Repr(s)) == Some(s)
  {
    var q := QuoteFor(s);
    var r := Repr(s);
    assert r[1..|r| - 1] == Escape(q, s);
    UnescapeEscape(q, s);
  }

}

=== FILE: resources.dfy ===
/**
 The sandboxed file accessor: listing the visible regular files directly
 under a fixed root directory, and reading one file by a client-supplied name
 after a containment check. Every failure is a value, never an exception.
 The root directory is a parameter of each operation.
 */
module Resources {
  import opened Wrappers
  import opened Paths
  import opened Quoting
  import opened FileTree
  import opened JsonData

  const AccessDeniedMessage: string := "Access denied"

  /** The failures the model represents, one per kind of exception the accessor reports. */
  datatype Fault =
    | AccessDenied              // the containment check failed
    | NotFound(path: Path)      // FileNotFoundError
    | NotADirectory(path: Path) // NotADirectoryError
    | IsADirectory(path: Path)  // IsADirectoryError
    | Undecodable               // UnicodeDecodeError

  /** The message of a failure, as str() of the caught exception renders it:
      an OSError names its path with repr(). */
  function Describe(f: Fault): (msg: string)
    ensures msg == AccessDeniedMessage <==> f.AccessDenied?
  {
    match f
    case AccessDenied => AccessDeniedMessage
    case NotFound(p) => "[Errno 2] No such file or directory: " + Repr(Render(p))
    case NotADirectory(p) => "[Errno 20] Not a directory: " + Repr(Render(p))
    case IsADirectory(p) => "[Errno 21] Is a directory: " + Repr(Render(p))
    case Undecodable => "'utf-8' codec can't decode the file's bytes"
  }

  datatype Metadata = Metadata(size: nat, modified: Timestamp)

  /** The result of listing: names, or a failure. */
  datatype Listing = Listed(files: seq<Component>) | ListFailed(fault: Fault)

  /** The result of reading: decoded text and metadata, or a failure. */
  datatype Reading = Loaded(content: string, metadata: Metadata) | ReadFailed(fault: Fault)

  predicate IsHidden(name: Component) {
    |name| > 0 && name[0] == '.'
  }

  /** name is a regular file directly under dir, and not hidden. */
  predicate IsVisibleFile(fs: FileSystem, dir: Path, name: Component) {
    IsFileAt(fs, dir + [name]) && !IsHidden(name)
  }

  /*
   * Listing
   */

  /** The entries of dir that are visible regular files, in enumeration order. */
  function VisibleFiles(fs: FileSystem, dir: Path, entries: seq<Component>): (r: seq<Component>)
    ensures forall n :: n in r <==> n in entries && IsVisibleFile(fs, dir, n)
    ensures Distinct(entries) ==> Distinct(r)
    ensures |r| <= |entries|
    decreases |entries|
  {
    if |entries| == 0 then []
    else
      var rest := VisibleFiles(fs, dir, entries[1..]);
      assert forall n :: n in entries <==> n == entries[0] || n in entries[1..];
      if IsVisibleFile(fs, dir, entries[0]) then
        assert Distinct(entries) ==> entries[0] !in entries[1..] && Distinct(entries[1..]);
        [entries[0]] + rest
      else
        assert Distinct(entries) ==> Distinct(entries[1..]);
        rest
  }

  /** Lists the visible regular files directly under root. */
  function ListFiles(fs: FileSystem, root: Path): (r: Listing)
    ensures r.ListFailed? <==> !IsDirAt(fs, root)
    ensures root !in fs ==> r == ListFailed(NotFound(root))
    ensures IsFileAt(fs, root) ==> r == ListFailed(NotADirectory(root))
    ensures r.Listed? ==> forall n :: n in r.files ==> IsVisibleFile(fs, root, n)
    ensures r.Listed? ==> |r.files| <= |fs[root].entries|
    ensures r.Listed? && fs[root].entries == [] ==> r.files == []
  {
    if root !in fs then ListFailed(NotFound(root))
    else match fs[root]
      case File(_, _) => ListFailed(NotADirectory(root))
      case Dir(entries) => Listed(VisibleFiles(fs, root, entries))
  }

  /** In a well-formed tree the listing holds every visible regular file
      directly under root exactly once, and nothing else. */
  lemma ListingIsExact(fs: FileSystem, root: Path)
    requires WellFormed(fs) && IsDirAt(fs, root)
    ensures ListFiles(fs, root).Listed?
    ensures forall n :: n in ListFiles(fs, root).files <==> IsVisibleFile(fs, root, n)
    ensures forall n :: multiset(ListFiles(fs, root).files)[n] == (if IsVisibleFile(fs, root, n) then 1 else 0)
  {
    var entries := fs[root].entries;
    var files := ListFiles(fs, root).files;
    assert Distinct(entries);
    forall n ensures multiset(files)[n] == (if IsVisibleFile(fs, root, n) then 1 else 0) {
      DistinctCountsOnce(files, n);
    }
  }

  /*
   * Reading
   */

  /** The resolved path that reading filename under root would open. */
  function Target(root: Path, filename: string): Path {
    Resolve(JoinName(root, filename))
  }

  /** The containment check: the resolved target lies strictly below root. */
  predicate Permitted(root: Path, filename: string) {
    StrictAncestor(root, Target(root, filename))
  }

  /** Reads filename under root: decoded text and metadata, or a failure. */
  function ReadFile(fs: FileSystem, root: Path, filename: string, decode: Decoder): (r: Reading)
    ensures r == ReadFailed(AccessDenied) <==> !Permitted(root, filename)
    ensures var t := Target(root, filename);
      r.Loaded? <==> Permitted(root, filename) && IsFileAt(fs, t) && decode(fs[t].bytes).Some?
    ensures var t := Target(root, filename);
      r.Loaded? ==> && r.content == decode(fs[t].bytes).value
                    && r.metadata.size == |fs[t].bytes|
                    && r.metadata.modified == fs[t].mtime
    ensures var t := Target(root, filename);
      Permitted(root, filename) && t !in fs ==> r == ReadFailed(NotFound(t))
    ensures var t := Target(root, filename);
      Permitted(root, filename) && IsDirAt(fs, t) ==> r == ReadFailed(IsADirectory(t))
  {
    var t := Target(root, filename);
    if !StrictAncestor(root, t) then ReadFailed(AccessDenied)
    else if t !in fs then ReadFailed(NotFound(t))
    else match fs[t]
      case Dir(_) => ReadFailed(IsADirectory(t))
      case File(bytes, mtime) =>
        match decode(bytes)
        case None => ReadFailed(Undecodable)
        case Some(text) => Loaded(text, Metadata(|bytes|, mtime))
  }

  /** A denied read consults nothing: neither the files nor the decoder
      change its result, so it does not reveal whether the target exists. */
  lemma DeniedReadIgnoresFiles(fs1: FileSystem, fs2: FileSystem, root: Path, filename: string, d1: Decoder, d2: Decoder)
    requires !Permitted(root, filename)
    ensures ReadFile(fs1, root, filename, d1) == ReadFile(fs2, root, filename, d2) == ReadFailed(AccessDenied)
  {
  }

  /** Any filename starting with "/" replaces the root: its target is its own
      resolution, whatever the root, and it is read only when that lies
      strictly below root. */
  lemma AbsoluteTarget(root: Path, filename: string)
    requires |filename| > 0 && filename[0] == Sep
    ensures Target(root, filename) == Resolve(Split(filename))
    ensures Permitted(root, filename) <==> StrictAncestor(root, Resolve(Split(filename)))
  {
  }

  /** A canonical absolute filename names its own path, which is read only
      when it lies strictly below root. */
  lemma {:induction false} AbsoluteNameIgnoresRoot(root: Path, p: Path)
    requires Canonical(p)
    ensures Target(root, Render(p)) == p
    ensures Permitted(root, Render(p)) <==> StrictAncestor(root, p)
  {
    ResolveRender(p);
  }

  /** A relative filename without ".." stays at or below root: it is permitted
      exactly when one of its components names an entry, so "", "." and "./."
      are denied while "a" and "./a//b" are permitted. */
  lemma {:induction false} RelativeNameWithoutParent(root: Path, filename: string)
    requires Canonical(root)
    requires !(|filename| > 0 && filename[0] == Sep)
    requires ".." !in Split(filename)
    ensures Target(root, filename) == root + Resolve(Split(filename))
    ensures Permitted(root, filename) <==> exists c :: c in Split(filename) && IsName(c)
  {
    var cs := Split(filename);
    RelativeTarget(root, filename);
    WalkWithoutParentStep(root, cs);
    ResolveEmptyWithoutParent(cs);
    assert (root + Resolve(cs))[..|root|] == root;
  }

  /** A single plain name, hidden or not, resolves to the entry of that name
      directly under root, which the containment check permits. */
  lemma {:induction false} PlainNameIsPermitted(root: Path, name: Component)
    requires Canonical(root) && IsPlainName(name)
    ensures Target(root, name) == root + [name]
    ensures Permitted(root, name)
  {
    SplitWithoutSep(name);
    assert JoinName(root, name) == root + [name];
    WalkAppend([], root, [name]);
    WalkNames([], root);
    assert Walk(root, [name]) == Walk(root + [name], []);
    assert (root + [name])[..|root|] == root;
  }

  /** Reading applies no hidden-name rule: a hidden regular file directly under
      root, such as ".secret", is read like any other. */
  lemma HiddenFileIsReadable(fs: FileSystem, root: Path, name: Component, decode: Decoder)
    requires Canonical(root) && IsPlainName(name) && IsHidden(name)
    requires IsFileAt(fs, root + [name]) && decode(fs[root + [name]].bytes).Some?
    ensures ReadFile(fs, root, name, decode).Loaded?
    ensures ReadFile(fs, root, name, decode).content == decode(fs[root + [name]].bytes).value
  {
    PlainNameIsPermitted(root, name);
  }

  /** A name that starts with ".." is read as the rest of the name taken from
      the root's parent. */
  lemma ParentPrefixClimbs(root: Path, rest: string)
    requires Canonical(root) && |root| > 0
    requires !(|rest| > 0 && rest[0] == Sep)
    ensures Target(root, ".." + [Sep] + rest) == Target(Parent(root), rest)
  {
    SplitWithoutSep("..");
    SplitAroundSep("..", rest);
    RelativeTarget(root, ".." + [Sep] + rest);
    WalkCons(root, "..", Split(rest));
    CanonicalParent(root);
    RelativeTarget(Parent(root), rest);
  }

  /** After climbing out of a non-root directory with "..", a name without
      further ".." is permitted only when it comes back through the root's own
      component and below: under "/srv/data", "../x" and "../data2/x" are denied,
      while "../data/x" is permitted. */
  lemma ClimbingOutAndBack(root: Path, rest: string)
    requires Canonical(root) && |root| > 0
    requires !(|rest| > 0 && rest[0] == Sep)
    requires ".." !in Split(rest)
    ensures var back := Resolve(Split(rest));
      Permitted(root, ".." + [Sep] + rest) <==> |back| > 1 && back[0] == Last(root)
  {
    ParentPrefixClimbs(root, rest);
    CanonicalParent(root);
    RelativeTarget(Parent(root), rest);
    WalkWithoutParentStep(Parent(root), Split(rest));
    AncestryFromParent(root, Resolve(Split(rest)));
  }

  /** A name that descends into an entry and climbs back, "a/..", resolves to
      the root itself and is denied. */
  lemma ReturningToRootIsDenied(root: Path, name: Component)
    requires Canonical(root) && IsPlainName(name)
    ensures Target(root, name + [Sep] + "..") == root
    ensures !Permitted(root, name + [Sep] + "..")
  {
    SplitWithoutSep(name);
    SplitWithoutSep("..");
    SplitAroundSep(name, "..");
    RelativeTarget(root, name + [Sep] + "..");
    WalkCons(root, name, [".."]);
    WalkCons(root + [name], "..", []);
    assert Parent(root + [name]) == root;
  }

  /** A relative name under a canonical root is walked from the root. */
  lemma RelativeTarget(root: Path, name: string)
    requires Canonical(root)
    requires !(|name| > 0 && name[0] == Sep)
    ensures Target(root, name) == Walk(root, Split(name))
  {
    var parts := Split(name);
    assert JoinName(root, name) == root + parts;
    WalkAppend([], root, parts);
    WalkNames([], root);
    assert [] + root == root;
  }

  /*
   * Envelopes: the JSON shape of each result
   */

  /** The listing as a response object: "files" on success, "error" otherwise. */
  function ListEnvelope(r: Listing): (env: Dict)
    ensures ("error" in env) != ("files" in env)
    ensures "error" in env <==> r.ListFailed?
    ensures r.ListFailed? ==> env == map["error" := JStr(Describe(r.fault))]
    ensures r.Listed? ==> env == map["files" := JArray(Strings(r.files))]
  {
    match r
    case Listed(files) => map["files" := JArray(Strings(files))]
    case ListFailed(f) => map["error" := JStr(Describe(f))]
  }

  /** The reading as a response object: "content" with "metadata" on success,
      "error" otherwise. */
  function ReadEnvelope(r: Reading): (env: Dict)
    ensures ("error" in env) != ("content" in env && "metadata" in env)
    ensures "error" in env <==> r.ReadFailed?
    ensures r.ReadFailed? ==> env == map["error" := JStr(Describe(r.fault))]
    ensures r.Loaded? ==> env["content"] == JStr(r.content) && env["metadata"] == MetadataJson(r.metadata)
  {
    match r
    case Loaded(text, m) => map["content" := JStr(text), "metadata" := MetadataJson(m)]
    case ReadFailed(f) => map["error" := JStr(Describe(f))]
  }

  function MetadataJson(m: Metadata): Json {
    JObject(map["size" := JInt(m.size), "modified" := JFloat(m.modified)])
  }

}

=== FILE: server.dfy ===
/**
 The resource adapter: two resource identifiers bound to the accessor's two
 operations, each answering with the accessor's result as a JSON object.
 */
module Server {
  import opened Wrappers
  import opened Paths
  import opened FileTree
  import opened JsonData
  import opened Resources

  const ListUri: string := "files://list"
  const ReadPrefix: string := "files://read/"

  datatype Request = ListRequest | ReadRequest(filename: string)

  /** Matches a URI against the templates "files://list" and
      "files://read/{filename}"; the parameter matches one or more characters
      other than "/". */
  function Route(uri: string): (r: Option<Request>)
    ensures r == Some(ListRequest) <==> uri == ListUri
    ensures r.Some? && r.value.ReadRequest? ==>
      && uri == ReadPrefix + r.value.filename
      && |r.value.filename| > 0
      && Sep !in r.value.filename
  {
    if uri == ListUri then Some(ListRequest)
    else if |ReadPrefix| < |uri| && uri[..|ReadPrefix|] == ReadPrefix && Sep !in uri[|ReadPrefix|..] then
      assert uri == uri[..|ReadPrefix|] + uri[|ReadPrefix|..];
      Some(ReadRequest(uri[|ReadPrefix|..]))
    else None
  }

  /** Every read URI the template matches is routed, to a read of the rest of the URI. */
  lemma ReadsAreRouted(name: string)
    requires |name| > 0 && Sep !in name
    ensures Route(ReadPrefix + name) == Some(ReadRequest(name))
  {
    var uri := ReadPrefix + name;
    assert uri[..|ReadPrefix|] == ReadPrefix && uri[|ReadPrefix|..] == name;
    assert uri != ListUri by {
      assert uri[8] == 'r' && ListUri[8] == 'l';
    }
  }

  /** Answers a request from the accessor, forwarding its result unchanged. */
  function Serve(fs: FileSystem, root: Path, decode: Decoder, req: Request): (env: Dict)
    ensures req.ListRequest? ==> ("error" in env) != ("files" in env)
    ensures req.ReadRequest? ==> ("error" in env) != ("content" in env && "metadata" in env)
    ensures "error" in env ==> env["error"].JStr?
  {
    match req
    case ListRequest => ListEnvelope(ListFiles(fs, root))
    case ReadRequest(filename) => ReadEnvelope(ReadFile(fs, root, filename, decode))
  }

  /** Routes a URI and serves it; None for a URI that matches no template. */
  function Handle(fs: FileSystem, root: Path, decode: Decoder, uri: string): Option<Dict> {
    match Route(uri)
    case None => None
    case Some(req) => Some(Serve(fs, root, decode, req))
  }

}

=== FILE: wrappers.dfy ===
/** Option, for the partial steps of the model: UTF-8 decoding and URI routing. */
module Wrappers {

  datatype Option<+T> = None | Some(value: T)

}
